=== FILE: README.md ===
# Anchor-navigation scroll helpers, modelled in Dafny

This project models the behavioural core of the `use-anchor` utilities of the
`hooks` package (`packages/hooks/src/use-anchor/utils.ts`): the cubic
ease-in-out curve, the frame loop of the smooth `scrollTo` animation, and the
leading-edge `throttle` wrapper with its `isThrottled()` query.

- `easing.dfy` (module `Easing`): `EaseInOutCubic` follows the source formula
  over `real`. Its partner is the normalised curve `Progress`; the lemmas prove
  the endpoints, continuity at the split point, monotonicity, range and point
  symmetry about the midpoint.
- `scroll_animation.dfy` (module `ScrollAnimation`): a run is the state machine
  {Running, Completed}. `ScrollTo` starts a run, and `Tick` is one animation
  frame: it clamps the elapsed time, writes the eased position, and either
  reschedules or completes (calling the callback when it is a function).
  `Drive` feeds the run an abstract sequence of clock readings until it
  completes. The lemmas prove the following. The run completes on the first
  reading whose elapsed time reaches the duration, and the callback runs
  exactly once there, if it is a function, and never otherwise. For a non-zero
  duration that last frame writes exactly the target. With a positive duration
  and a clock that never goes backwards from the start, the written positions
  stay between the start offset and the target and move monotonically towards
  the target.
- `throttle.dfy` (module `Throttle`): the wrapper state `{ready, timer}` and
  the two events `Call(handle, returned)` and `TimerFires`. The source runs
  the wrapped function before it clears `ready` and arms the timer. So a call
  whose function throws (`returned` false) leaves the wrapper unchanged. The
  lemmas prove the following.
  - The invariant "ready exactly when no timer is pending" holds from the start
    and survives both events.
  - A call while throttled is dropped.
  - A burst of returning calls runs the wrapped function at most once. A
    function that throws every time runs on every call.
  - Over any event sequence, the function runs at most once more than the
    number of timer expiries plus the number of throwing calls.
  - `ReplayMatchesCooldown` characterises exactly which calls run it. A call
    runs the function exactly when every earlier returning call was followed
    by an expiry before it.
- `wrappers.dfy` (module `Wrappers`): `Option`, standing for `undefined`.

Environment inputs are parameters. Whether a window environment exists is
`hasWindow`. The container's current vertical offset is `startOffset`, in
place of what `getScroll` would read. `Date.now()` readings are integers in
milliseconds. Each `requestAnimationFrame` callback is one element of the
clock sequence. The handle that `setTimeout` returns is carried by the `Call`
event, and so is whether the wrapped function returned or threw. The timer's
expiry is the `TimerFires` event.

The third argument of `easeInOutCubic` is the target position. The code
computes the change itself, as `c - b`.

Edge cases the code handles without a special case:
- A zero duration is not special-cased. The easing divides by zero, so every
  frame writes a non-finite number: NaN at the start instant and after it,
  and NaN or an infinity for a reading before the start. The model calls all
  of these `NonFinite`. A reading before the start still reschedules. The run
  completes on its first frame not before the start, and calls the callback
  there exactly once if it is a function.
- A negative duration needs no special case either. On any frame from the
  start on, the elapsed time is not below the duration, so the clamped time
  equals the duration: the first such frame writes exactly the target and
  completes.

## Model

| member | source | states |
|---|---|---|
| Easing.EaseInOutCubic | packages/hooks/src/use-anchor/utils.ts:36-44 | The source's easing, step by step over `real`, for a non-zero duration d. Its properties are stated by the `Ease*` lemmas below. |
| Easing.EaseIsAffineProgress | packages/hooks/src/use-anchor/utils.ts:36-44 | The easing is the start value plus the full change `c - b` scaled by the normalised curve: cube/2 below progress 1, the shifted ease-out cube from 1 on. |
| Easing.ProgressContinuousAtSplit | packages/hooks/src/use-anchor/utils.ts:39-43 | The ease-in and ease-out branches both give 1/2 at progress 1, so the curve is continuous where it splits. |
| Easing.ProgressMonotone | packages/hooks/src/use-anchor/utils.ts:39-43 | The normalised curve is non-decreasing over all reals, across the branch split too. |
| Easing.ProgressRange | packages/hooks/src/use-anchor/utils.ts:39-43 | The normalised curve is 0 at progress 0 and 1 at progress 2, and lies in [0, 1] in between. |
| Easing.ProgressSymmetric | packages/hooks/src/use-anchor/utils.ts:39-43 | Ease-out mirrors ease-in: `Progress(2 - p) == 1 - Progress(p)` for every p. |
| Easing.EaseStartsAtStart | packages/hooks/src/use-anchor/utils.ts:36-40 | At t = 0 the easing returns the start value b. |
| Easing.EaseEndsAtTarget | packages/hooks/src/use-anchor/utils.ts:36-43 | At t = d it returns the target c, for every non-zero d. |
| Easing.EaseMidpoint | packages/hooks/src/use-anchor/utils.ts:38-43 | At t = d/2 it returns (b + c)/2. |
| Easing.EaseMonotone | packages/hooks/src/use-anchor/utils.ts:36-43 | With d > 0 it is non-decreasing in t when b <= c and non-increasing when c <= b. |
| Easing.EaseWithinRange | packages/hooks/src/use-anchor/utils.ts:36-43 | With d > 0 and 0 <= t <= d the result lies between b and c, in either order. |
| Easing.EaseSymmetric | packages/hooks/src/use-anchor/utils.ts:36-43 | Position at d - t is b + c minus the position at t. |
| ScrollAnimation.EasedPosition | packages/hooks/src/use-anchor/utils.ts:38 | The written value is finite exactly when the duration is non-zero; division by a zero duration gives a non-finite number. |
| ScrollAnimation.ScrollTo | packages/hooks/src/use-anchor/utils.ts:55-62 | Without a window nothing starts. Otherwise the run starts at the container's offset and the current clock reading and heads for y with the given callback. It uses the duration the caller supplies, and 450 when the duration is left undefined. |
| ScrollAnimation.ScrollToStartsAtOffset | packages/hooks/src/use-anchor/utils.ts:59-67 | For a positive duration, a frame at the start instant writes exactly the start offset. |
| ScrollAnimation.Tick | packages/hooks/src/use-anchor/utils.ts:64-79 | A frame reschedules iff elapsed time < duration. It calls the callback iff it does not reschedule and the callback is a function. Its write is finite iff the duration is non-zero. |
| ScrollAnimation.TickArrivedWritesTarget | packages/hooks/src/use-anchor/utils.ts:66-67 | For a non-zero duration, a frame at or past the duration writes exactly y, because elapsed time is clamped to the duration. |
| ScrollAnimation.TickWithinRange | packages/hooks/src/use-anchor/utils.ts:65-67 | With a positive duration, no frame at or after the start writes outside the stretch from start offset to y. |
| ScrollAnimation.TickMonotone | packages/hooks/src/use-anchor/utils.ts:65-67 | With a positive duration, a later frame is never further from y than an earlier one. |
| ScrollAnimation.Drive | packages/hooks/src/use-anchor/utils.ts:75-81 | Each frame uses exactly one reading, so a run makes at most one frame per reading. A completed run schedules no frame and so produces no effect. |
| ScrollAnimation.DriveFollowsClock | packages/hooks/src/use-anchor/utils.ts:64-67 | Frame i of a run is the tick at reading i. |
| ScrollAnimation.FirstArrival | packages/hooks/src/use-anchor/utils.ts:75 | Finds the first reading at which elapsed time reaches the duration; every reading before it is still short of the duration. |
| ScrollAnimation.CallbackOnlyOnCompletion | packages/hooks/src/use-anchor/utils.ts:75-79 | Over any clock, the callback count is 1 if a running run completes and the callback is a function, and 0 otherwise. |
| ScrollAnimation.DriveStopsAtFirstArrival | packages/hooks/src/use-anchor/utils.ts:75-79 | If reading k is the first to reach the duration, the run takes exactly k + 1 frames and completes. All frames but the last reschedule. |
| ScrollAnimation.CompletesOnFirstArrival | packages/hooks/src/use-anchor/utils.ts:64-81 | If any reading reaches the duration, the run completes on the first such reading and the callback runs exactly once iff it is a function. With a non-zero duration the last write is exactly the target. |
| ScrollAnimation.RunningWhileNotArrived | packages/hooks/src/use-anchor/utils.ts:75-76 | Readings that never reach the duration keep the run going, one rescheduling frame each, with no callback. |
| ScrollAnimation.WritesMoveTowardsTarget | packages/hooks/src/use-anchor/utils.ts:64-76 | Take a positive duration and a clock that never goes backwards. Every written position is finite and between the start offset and y, and the positions move monotonically towards y. |
| ScrollAnimation.ScrollToEndsAtTarget | packages/hooks/src/use-anchor/utils.ts:55-82 | Take a scroll started with a positive duration and driven by readings that reach it. It starts at the container's offset, completes, ends exactly at y, and calls a function callback exactly once. |
| Throttle.OnCall | packages/hooks/src/use-anchor/utils.ts:96-104 | A call invokes the function iff the wrapper is ready. A call while not ready leaves the state unchanged. So does a call whose function throws, because the exception escapes before `ready` is cleared. After a returning call the wrapper is not ready. If it was ready, the timer holds the new handle and the wrapper is throttled. |
| Throttle.IsThrottled | packages/hooks/src/use-anchor/utils.ts:105-107 | `isThrottled()` is `timer !== undefined`. Under the wrapper's invariant that is exactly "not ready". |
| Throttle.Step | packages/hooks/src/use-anchor/utils.ts:96-103 | One event: a call invokes the function iff the wrapper is ready. A returning call leaves it not ready. An expiry returns it to the fresh state. Both keep the invariant. |
| Throttle.OnTimerFires | packages/hooks/src/use-anchor/utils.ts:100-103 | Expiry restores ready and clears the timer, returning to the initial state without invoking the function. |
| Throttle.InitialValid | packages/hooks/src/use-anchor/utils.ts:93-94 | The fresh wrapper state `Initial` (`ready = true`, `timer` undefined) is ready, has no timer, is not throttled, and satisfies the invariant. |
| Throttle.StepPreservesValid | packages/hooks/src/use-anchor/utils.ts:96-107 | Both events preserve `ready <==> no timer pending`. Under that invariant `isThrottled()` is exactly "not ready". |
| Throttle.Replay | packages/hooks/src/use-anchor/utils.ts:96-104 | Replaying events records one invocation flag per event, and the invariant survives any sequence of events. |
| Throttle.ReplayMatchesCooldown | packages/hooks/src/use-anchor/utils.ts:96-104 | From a fresh wrapper, event i invokes the function iff it is a call and every earlier returning call was followed by an expiry before it. At the end the wrapper is ready iff every returning call was so followed. |
| Throttle.BurstInvokesOnce | packages/hooks/src/use-anchor/utils.ts:96-104 | N >= 1 returning calls with no expiry between them invoke the function once if the wrapper was ready and never otherwise. They leave it throttled. |
| Throttle.ThrowingCallsAllInvoke | packages/hooks/src/use-anchor/utils.ts:97-99 | From a ready wrapper, calls whose function throws each run the function and leave the wrapper unchanged. |
| Throttle.AtMostOncePerCooldown | packages/hooks/src/use-anchor/utils.ts:96-104 | Over any events, invocations plus final readiness never exceed initial readiness plus the number of expiries plus the number of throwing calls. |

## Left out

- `isWindow` and `getDefaultContainer` (utils.ts lines 1-7): identity checks against the browser's global object, with no abstract content. Whether a window exists is the `hasWindow` parameter.
- `getScroll` (lines 9-34): DOM property reads through `instanceof` checks and a loose fallback for mock shapes. The start offset it would return is the `startOffset` parameter of `ScrollTo`.
- Which DOM property receives the position (lines 68-74): the window's scroll call, the document root's `scrollTop`, or the element's `scrollTop`, chosen partly by constructor-name duck typing. The model records only the position written.
- `Date.now`, `requestAnimationFrame` and `setTimeout` are replaced by explicit clock readings and explicit `TimerFires` events. The throttle's `interval` only sets when the timer fires, so it has no counterpart. Two overlapping `scrollTo` runs racing on one container are not modelled.
- Throttle.OnTimerFires: accepts an expiry in any state. The program only fires the timer a returning call armed (utils.ts line 100), so an expiry with no timer pending cannot happen there. The model allows more behaviours than the program, and `Fires` in `AtMostOncePerCooldown` also counts such expiries.
- The arguments passed through to the throttled function are not modelled; only whether it runs.
- Throttle.OnCall: assumes the wrapped function does not call the same wrapper while it runs. Such a nested call would still find `ready` set and run the function a second time.
- IEEE-754 rounding: the easing is computed over `real`. NaN and the infinities are one `NonFinite` value, which the model reaches only through a zero duration.
- Only finite start offsets, targets and durations are modelled, because `startOffset`, `y` and `duration` are `real`. Cases of the source outside this include the following. `getScroll` can return `undefined` (utils.ts line 31), which makes every write NaN. A caller can pass a NaN or infinite `y`. A duration of `Infinity` never completes, because `time < duration` always holds. A duration of NaN or `-Infinity` completes on the first frame, because `time < duration` is false there, and calls the callback at once if it is a function. That frame writes NaN: the easing divides by NaN, or divides the clamped `-Infinity` by `-Infinity`.
- Easing.EaseInOutCubic: requires d != 0, where the source returns NaN for d = 0. `ScrollAnimation.EasedPosition` supplies that case as `NonFinite`.
- `ScrollTo`'s options model `duration` as given or `undefined`. A `null` or non-numeric duration, which JavaScript's default-parameter rule would not replace by 450, is not modelled.

=== FILE: easing.dfy ===
/**
 The cubic ease-in-out curve used by the anchor widget's smooth scrolling.

 `EaseInOutCubic(t, b, c, d)` follows the source formula step by step: it
 normalises the elapsed time `t` against half the duration `d`, and uses the
 ease-in cube below the midpoint and the ease-out cube from it on. The curve
 is stated over `real`, so floating-point rounding is not modelled.

 The partner of the formula is `Progress`, the same curve normalised to run
 from 0 to 1 as its argument runs from 0 to 2; `EaseIsAffineProgress` shows
 the two agree, and the endpoint, midpoint, range, monotonicity and symmetry
 facts are proved about `Progress` and carried over.
 */
module Easing {

  /** x cubed, written the way the source multiplies it out. */
  function Cube(x: real): real {
    x * x * x
  }

  /** The ease-in half of the normalised curve, used for progress below 1. */
  function InCurve(p: real): real {
    Cube(p) / 2.0
  }

  /** The ease-out half of the normalised curve, used for progress from 1 on. */
  function OutCurve(p: real): real {
    (Cube(p - 2.0) + 2.0) / 2.0
  }

  /** The normalised curve: progress `p` is elapsed time over half the duration. */
  function Progress(p: real): real {
    if p < 1.0 then InCurve(p) else OutCurve(p)
  }

  /** The source's easing: position at time `t` on the way from `b` to `c` in time `d`.
      The source divides by `d / 2`, so a zero duration has no value here. */
  function EaseInOutCubic(t: real, b: real, c: real, d: real): real
    requires d != 0.0
  {
    var cc := c - b;
    var p := t / (d / 2.0);
    if p < 1.0 then
      (cc / 2.0) * p * p * p + b
    else
      var u := p - 2.0;
      (cc / 2.0) * (u * u * u + 2.0) + b
  }

  /** Elapsed time measured in half durations, as the source normalises it. */
  function Normalise(t: real, d: real): real
    requires d != 0.0
  {
    t / (d / 2.0)
  }

  /** The point a fraction `s` of the way from `b` to `c`. */
  function Along(b: real, c: real, s: real): real {
    b + (c - b) * s
  }

  /** The easing is the start value plus the whole change scaled by the normalised curve. */
  lemma EaseIsAffineProgress(t: real, b: real, c: real, d: real)
    requires d != 0.0
    ensures EaseInOutCubic(t, b, c, d) == Along(b, c, Progress(Normalise(t, d)))
  {
  }

  /** Cubing preserves order over all reals. */
  lemma CubeMonotone(x: real, y: real)
    requires x <= y
    ensures Cube(x) <= Cube(y)
  {
    var s := y * y + x * y + x * x;
    assert s == (y + x / 2.0) * (y + x / 2.0) + 3.0 * (x * x) / 4.0;
    assert (y + x / 2.0) * (y + x / 2.0) >= 0.0;
    assert x * x >= 0.0;
    assert s >= 0.0;
    assert Cube(y) - Cube(x) == (y - x) * s;
    assert (y - x) * s >= 0.0;
  }

  /** The two halves of the curve meet at progress 1, halfway between 0 and 1,
      so the piecewise definition is continuous at its split point. */
  lemma ProgressContinuousAtSplit()
    ensures InCurve(1.0) == OutCurve(1.0) == Progress(1.0) == 0.5
  {
  }

  /** The normalised curve never decreases. */
  lemma {:induction false} ProgressMonotone(p: real, q: real)
    requires p <= q
    ensures Progress(p) <= Progress(q)
  {
    if q < 1.0 {
      CubeMonotone(p, q);
    } else if 1.0 <= p {
      CubeMonotone(p - 2.0, q - 2.0);
    } else {
      CubeMonotone(p, 1.0);
      CubeMonotone(-1.0, q - 2.0);
      assert Progress(p) <= 0.5 <= Progress(q);
    }
  }

  /** The normalised curve runs from 0 at progress 0 to 1 at progress 2, and stays in
      between on the way. */
  lemma ProgressRange(p: real)
    requires 0.0 <= p <= 2.0
    ensures Progress(0.0) == 0.0 && Progress(2.0) == 1.0
    ensures 0.0 <= Progress(p) <= 1.0
  {
    assert Cube(0.0) == 0.0;
    assert Progress(0.0) == InCurve(0.0) == 0.0;
    assert Progress(2.0) == OutCurve(2.0) == 1.0;
    ProgressMonotone(0.0, p);
    ProgressMonotone(p, 2.0);
  }

  /** The curve is point-symmetric about its midpoint: easing out mirrors easing in. */
  lemma ProgressSymmetric(p: real)
    ensures Progress(2.0 - p) == 1.0 - Progress(p)
  {
  }

  /** At time 0 the easing yields the start value. */
  lemma EaseStartsAtStart(b: real, c: real, d: real)
    requires d != 0.0
    ensures EaseInOutCubic(0.0, b, c, d) == b
  {
  }

  /** At the full duration the easing yields the target value, for any non-zero duration. */
  lemma EaseEndsAtTarget(b: real, c: real, d: real)
    requires d != 0.0
    ensures EaseInOutCubic(d, b, c, d) == c
  {
  }

  /** At half the duration the easing is exactly halfway between start and target. */
  lemma EaseMidpoint(b: real, c: real, d: real)
    requires d != 0.0
    ensures EaseInOutCubic(d / 2.0, b, c, d) == (b + c) / 2.0
  {
  }

  /** Dividing by a positive number keeps order. */
  lemma DivMonotone(x: real, y: real, h: real)
    requires h > 0.0 && x <= y
    ensures x / h <= y / h
  {
  }

  /** Scaling by a non-negative factor keeps order, scaling by a non-positive one reverses it. */
  lemma ScaleMonotone(k: real, x: real, y: real)
    requires x <= y
    ensures k >= 0.0 ==> k * x <= k * y
    ensures k <= 0.0 ==> k * y <= k * x
  {
  }

  /** The affine form of the curve moves from `b` towards `c` as progress grows. */
  lemma AffineProgressMonotone(p: real, q: real, b: real, c: real)
    requires p <= q
    ensures b <= c ==> Along(b, c, Progress(p)) <= Along(b, c, Progress(q))
    ensures c <= b ==> Along(b, c, Progress(q)) <= Along(b, c, Progress(p))
  {
    ProgressMonotone(p, q);
    ScaleMonotone(c - b, Progress(p), Progress(q));
  }

  /** For a positive duration the position moves towards the target as time goes on:
      never backwards when the target lies ahead, never forwards when it lies behind. */
  lemma EaseMonotone(t1: real, t2: real, b: real, c: real, d: real)
    requires d > 0.0 && t1 <= t2
    ensures b <= c ==> EaseInOutCubic(t1, b, c, d) <= EaseInOutCubic(t2, b, c, d)
    ensures c <= b ==> EaseInOutCubic(t2, b, c, d) <= EaseInOutCubic(t1, b, c, d)
  {
    DivMonotone(t1, t2, d / 2.0);
    AffineProgressMonotone(Normalise(t1, d), Normalise(t2, d), b, c);
    EaseIsAffineProgress(t1, b, c, d);
    EaseIsAffineProgress(t2, b, c, d);
  }

  /** Within the duration the position stays between start and target, whichever way it moves. */
  lemma EaseWithinRange(t: real, b: real, c: real, d: real)
    requires d > 0.0 && 0.0 <= t <= d
    ensures b <= c ==> b <= EaseInOutCubic(t, b, c, d) <= c
    ensures c <= b ==> c <= EaseInOutCubic(t, b, c, d) <= b
  {
    EaseMonotone(0.0, t, b, c, d);
    EaseMonotone(t, d, b, c, d);
    EaseStartsAtStart(b, c, d);
    EaseEndsAtTarget(b, c, d);
  }

  /** Mirroring time about the midpoint mirrors the position about the halfway value. */
  lemma EaseSymmetric(t: real, b: real, c: real, d: real)
    requires d != 0.0
    ensures EaseInOutCubic(d - t, b, c, d) == b + c - EaseInOutCubic(t, b, c, d)
  {
    var h := d / 2.0;
    assert d / h == 2.0;
    assert Normalise(d - t, d) == 2.0 - Normalise(t, d) by {
      assert (d - t) / h == d / h - t / h;
    }
    ProgressSymmetric(Normalise(t, d));
    EaseIsAffineProgress(t, b, c, d);
    EaseIsAffineProgress(d - t, b, c, d);
  }
}

=== FILE: scroll_animation.dfy ===
/**
 The smooth-scroll animation of the anchor widget (`scrollTo`).

 The source starts a run by reading the container's scroll offset and the
 clock, then lets the browser call a frame function on every display refresh.
 Each frame measures the elapsed time, clamps it to the duration, writes the
 eased position, and either asks for another frame or ends the run, calling
 the completion callback when one was given as a function.

 Here the browser is replaced by explicit inputs: the start offset is a
 parameter, and the refresh ticks are a sequence of clock readings in whole
 milliseconds. A run is the state machine {Running, Completed}: `Tick` is one
 frame, `Drive` feeds it readings until the run completes.
 */
module ScrollAnimation {
  import opened Wrappers
  import opened Easing

  /** A JavaScript number as this animation can produce it: a finite value, or the NaN
      (or infinity) that dividing by a zero duration yields. */
  datatype Number = Finite(value: real) | NonFinite

  /** The completion callback option: absent, present but not a function, or a function. */
  datatype Callback = NoCallback | NotCallable | Callable

  /** The recognised options; `duration` is `None` when left undefined. The container
      option is replaced by the offset it would be read from. */
  datatype Options = Options(callback: Callback, duration: Option<real>)

  /** Duration used when the options leave it undefined, in milliseconds. */
  const DefaultDuration: real := 450.0

  /** One animation run: when it started, where it started, where it goes, how long it takes. */
  datatype Animation = Animation(startTime: int, from: real, target: real, duration: real, callback: Callback)

  datatype Phase = Running | Completed

  /** What one frame does: the position it writes, whether it asks for another frame,
      and whether it calls the completion callback. */
  datatype Effect = Effect(write: Number, reschedule: bool, callbackFired: bool)

  /** The phases and frame effects of a run fed a sequence of clock readings. */
  datatype Trace = Trace(phase: Phase, effects: seq<Effect>)

  /** `x` lies between `b` and `c`, in whichever order those two come. */
  predicate Between(x: real, b: real, c: real) {
    (b <= c ==> b <= x <= c) && (c <= b ==> c <= x <= b)
  }

  /** Milliseconds since the run started, as the frame computes them. */
  function Elapsed(a: Animation, now: int): real {
    (now - a.startTime) as real
  }

  /** A frame at `now` is the last one: the elapsed time has reached the duration. */
  predicate Arrived(a: Animation, now: int) {
    !(Elapsed(a, now) < a.duration)
  }

  /** The eased position for (already clamped) time `t`; a zero duration divides by zero. */
  function EasedPosition(t: real, b: real, c: real, d: real): (n: Number)
    ensures n.Finite? <==> d != 0.0
  {
    if d == 0.0 then NonFinite else Finite(EaseInOutCubic(t, b, c, d))
  }

  /** The duration a run uses: the option when given, the default otherwise. */
  function DurationOf(options: Options): real {
    if options.duration.Some? then options.duration.value else DefaultDuration
  }

  /** Starts a run. Without a window environment nothing happens; otherwise the run
      starts at the container's current offset and the current clock reading, with
      the duration defaulting to 450 milliseconds. */
  function ScrollTo(hasWindow: bool, y: real, options: Options, startOffset: real, now: int): (r: Option<Animation>)
    ensures r.Some? <==> hasWindow
    ensures r.Some? ==> r.value.from == startOffset && r.value.startTime == now
    ensures r.Some? ==> r.value.target == y && r.value.callback == options.callback
    ensures r.Some? && options.duration.Some? ==> r.value.duration == options.duration.value
    ensures r.Some? && options.duration.None? ==> r.value.duration == DefaultDuration
  {
    if !hasWindow then None
    else Some(Animation(now, startOffset, y, DurationOf(options), options.callback))
  }

  /** A started run with a positive duration begins where the container is: a frame at
      the start instant writes the start offset. */
  lemma ScrollToStartsAtOffset(y: real, options: Options, startOffset: real, now: int)
    requires DurationOf(options) > 0.0
    ensures var r := ScrollTo(true, y, options, startOffset, now);
      r.Some? && Tick(r.value, now).write == Finite(startOffset)
  {
    EaseStartsAtStart(startOffset, y, DurationOf(options));
  }

  /** One frame at clock reading `now`. */
  function Tick(a: Animation, now: int): (e: Effect)
    ensures e.reschedule <==> !Arrived(a, now)
    ensures e.callbackFired <==> Arrived(a, now) && a.callback.Callable?
    ensures e.write.Finite? <==> a.duration != 0.0
  {
    var time := Elapsed(a, now);
    var t := if time > a.duration then a.duration else time;
    var write := EasedPosition(t, a.from, a.target, a.duration);
    if time < a.duration then Effect(write, true, false)
    else Effect(write, false, a.callback.Callable?)
  }

  /** The last frame writes exactly the target, for any non-zero duration. */
  lemma TickArrivedWritesTarget(a: Animation, now: int)
    requires a.duration != 0.0 && Arrived(a, now)
    ensures Tick(a, now).write == Finite(a.target)
  {
    EaseEndsAtTarget(a.from, a.target, a.duration);
  }

  /** With a positive duration, no frame at or after the start writes outside the way
      from the start offset to the target. */
  lemma TickWithinRange(a: Animation, now: int)
    requires a.duration > 0.0 && a.startTime <= now
    ensures Tick(a, now).write.Finite?
    ensures Between(Tick(a, now).write.value, a.from, a.target)
  {
    var time := Elapsed(a, now);
    var t := if time > a.duration then a.duration else time;
    EaseWithinRange(t, a.from, a.target, a.duration);
  }

  /** With a positive duration, a later frame is never further from the target than an
      earlier one: the written positions move monotonically towards it. */
  lemma TickMonotone(a: Animation, n1: int, n2: int)
    requires a.duration > 0.0 && n1 <= n2
    ensures a.from <= a.target ==> Tick(a, n1).write.value <= Tick(a, n2).write.value
    ensures a.target <= a.from ==> Tick(a, n2).write.value <= Tick(a, n1).write.value
  {
    var time1, time2 := Elapsed(a, n1), Elapsed(a, n2);
    var t1 := if time1 > a.duration then a.duration else time1;
    var t2 := if time2 > a.duration then a.duration else time2;
    EaseMonotone(t1, t2, a.from, a.target, a.duration);
  }

  /** The phase a frame leaves the run in. */
  function After(e: Effect): Phase {
    if e.reschedule then Running else Completed
  }

  /** Feeds clock readings to a run, one per frame, until it completes; a completed
      run schedules no frame, so it ignores further readings. */
  function Drive(a: Animation, phase: Phase, clock: seq<int>): (tr: Trace)
    ensures |tr.effects| <= |clock|
    ensures phase == Completed ==> tr == Trace(Completed, [])
    decreases |clock|
  {
    if phase == Completed || |clock| == 0 then Trace(phase, [])
    else
      var e := Tick(a, clock[0]);
      var rest := Drive(a, After(e), clock[1..]);
      Trace(rest.phase, [e] + rest.effects)
  }

  /** Frame `i` of a driven run is the tick at reading `i`: a run's frames depend only on
      the animation and the clock, never on earlier frames. */
  lemma {:induction false} DriveFollowsClock(a: Animation, phase: Phase, clock: seq<int>)
    ensures var tr := Drive(a, phase, clock);
      forall i :: 0 <= i < |tr.effects| ==> tr.effects[i] == Tick(a, clock[i])
    decreases |clock|
  {
    if phase == Running && |clock| > 0 {
      DriveFollowsClock(a, After(Tick(a, clock[0])), clock[1..]);
    }
  }

  /** How many frames called the completion callback. */
  function CallbackCount(effects: seq<Effect>): nat {
    if |effects| == 0 then 0
    else (if effects[0].callbackFired then 1 else 0) + CallbackCount(effects[1..])
  }

  /** The index of the first reading at which the run arrives, or `|clock|` if none does. */
  function FirstArrival(a: Animation, clock: seq<int>): (k: nat)
    ensures k <= |clock|
    ensures forall j :: 0 <= j < k ==> !Arrived(a, clock[j])
    ensures k < |clock| ==> Arrived(a, clock[k])
    decreases |clock|
  {
    if |clock| == 0 || Arrived(a, clock[0]) then 0
    else 1 + FirstArrival(a, clock[1..])
  }

  /** Over any clock, the callback runs once exactly when a running run completes and
      the callback is a function, and never otherwise. */
  lemma {:induction false} CallbackOnlyOnCompletion(a: Animation, phase: Phase, clock: seq<int>)
    ensures var tr := Drive(a, phase, clock);
      CallbackCount(tr.effects) == (if phase == Running && tr.phase == Completed && a.callback.Callable? then 1 else 0)
    decreases |clock|
  {
    if phase == Running && |clock| > 0 {
      var e := Tick(a, clock[0]);
      CallbackOnlyOnCompletion(a, After(e), clock[1..]);
      var tr := Drive(a, phase, clock);
      assert tr.effects[1..] == Drive(a, After(e), clock[1..]).effects;
    }
  }

  /** A running run fed readings that arrive at index `k` for the first time stops there:
      it takes exactly `k + 1` frames, all but the last reschedule, and it completes. */
  lemma {:induction false} DriveStopsAtFirstArrival(a: Animation, clock: seq<int>, k: nat)
    requires k < |clock| && Arrived(a, clock[k])
    requires forall j :: 0 <= j < k ==> !Arrived(a, clock[j])
    ensures var tr := Drive(a, Running, clock);
      && tr.phase == Completed
      && |tr.effects| == k + 1
      && (forall j :: 0 <= j < k ==> tr.effects[j].reschedule)
      && !tr.effects[k].reschedule
    decreases k
  {
    if k > 0 {
      DriveStopsAtFirstArrival(a, clock[1..], k - 1);
    }
  }

  /** The animation's termination promise: once the readings reach the duration, the run
      completes on the first such reading, the callback runs exactly once if it is a
      function and not at all otherwise, and that last frame writes exactly the target. */
  lemma CompletesOnFirstArrival(a: Animation, clock: seq<int>)
    requires exists i :: 0 <= i < |clock| && Arrived(a, clock[i])
    ensures var tr := Drive(a, Running, clock);
      && tr.phase == Completed
      && |tr.effects| == FirstArrival(a, clock) + 1
      && CallbackCount(tr.effects) == (if a.callback.Callable? then 1 else 0)
      && tr.effects[|tr.effects| - 1].callbackFired == a.callback.Callable?
      && (a.duration != 0.0 ==> tr.effects[|tr.effects| - 1].write == Finite(a.target))
  {
    var k := FirstArrival(a, clock);
    var i :| 0 <= i < |clock| && Arrived(a, clock[i]);
    assert k < |clock|;
    DriveStopsAtFirstArrival(a, clock, k);
    DriveFollowsClock(a, Running, clock);
    CallbackOnlyOnCompletion(a, Running, clock);
    if a.duration != 0.0 {
      TickArrivedWritesTarget(a, clock[k]);
    }
  }

  /** Readings that never reach the duration leave the run going: every reading yields a
      frame that asks for another, and the callback never runs. */
  lemma {:induction false} RunningWhileNotArrived(a: Animation, clock: seq<int>)
    requires forall j :: 0 <= j < |clock| ==> !Arrived(a, clock[j])
    ensures var tr := Drive(a, Running, clock);
      && tr.phase == Running
      && |tr.effects| == |clock|
      && CallbackCount(tr.effects) == 0
    decreases |clock|
  {
    if |clock| > 0 {
      RunningWhileNotArrived(a, clock[1..]);
    }
    CallbackOnlyOnCompletion(a, Running, clock);
  }

  /** Clock readings never go backwards and never precede the start of the run. */
  predicate ClockFrom(start: int, clock: seq<int>) {
    && (forall i :: 0 <= i < |clock| ==> start <= clock[i])
    && (forall i, j :: 0 <= i < j < |clock| ==> clock[i] <= clock[j])
  }

  /** Driven by a clock that does not go backwards, a run with a positive duration writes
      only positions between the start offset and the target, moving monotonically
      towards the target. */
  lemma WritesMoveTowardsTarget(a: Animation, clock: seq<int>)
    requires a.duration > 0.0 && ClockFrom(a.startTime, clock)
    ensures var w := Drive(a, Running, clock).effects;
      && (forall i :: 0 <= i < |w| ==> w[i].write.Finite? && Between(w[i].write.value, a.from, a.target))
      && (forall i, j :: 0 <= i < j < |w| && a.from <= a.target ==> w[i].write.value <= w[j].write.value)
      && (forall i, j :: 0 <= i < j < |w| && a.target <= a.from ==> w[j].write.value <= w[i].write.value)
  {
    var w := Drive(a, Running, clock).effects;
    DriveFollowsClock(a, Running, clock);
    forall i | 0 <= i < |w|
      ensures w[i].write.Finite? && Between(w[i].write.value, a.from, a.target)
    {
      TickWithinRange(a, clock[i]);
    }
    forall i, j | 0 <= i < j < |w|
      ensures a.from <= a.target ==> w[i].write.value <= w[j].write.value
      ensures a.target <= a.from ==> w[j].write.value <= w[i].write.value
    {
      TickMonotone(a, clock[i], clock[j]);
    }
  }

  /** End to end: a scroll started with a positive duration, driven by any readings that
      reach it, begins at the container's offset, ends exactly at `y`, and calls a
      function callback exactly once. */
  lemma ScrollToEndsAtTarget(y: real, options: Options, startOffset: real, now: int, clock: seq<int>)
    requires DurationOf(options) > 0.0
    requires exists i :: 0 <= i < |clock| && DurationOf(options) <= (clock[i] - now) as real
    ensures var r := ScrollTo(true, y, options, startOffset, now);
      && r.Some?
      && Tick(r.value, now).write == Finite(startOffset)
      && var tr := Drive(r.value, Running, clock);
      && tr.phase == Completed
      && tr.effects[|tr.effects| - 1].write == Finite(y)
      && CallbackCount(tr.effects) == (if options.callback.Callable? then 1 else 0)
  {
    var a := Animation(now, startOffset, y, DurationOf(options), options.callback);
    var r := ScrollTo(true, y, options, startOffset, now);
    assert r == Some(a);
    ScrollToStartsAtOffset(y, options, startOffset, now);
    var i :| 0 <= i < |clock| && DurationOf(options) <= (clock[i] - now) as real;
    assert Arrived(a, clock[i]);
    CompletesOnFirstArrival(a, clock);
  }
}

=== FILE: throttle.dfy ===
/**
 The leading-edge throttle of the anchor widget (`throttle`).

 A throttled wrapper keeps a `ready` flag and the handle of a pending cooldown
 timer. A call while ready invokes the wrapped function at once, clears
 `ready` and arms the timer; a call while not ready is dropped. When the timer
 fires, `ready` is restored and the handle forgotten. `isThrottled()` reports
 whether a timer is pending.

 The timer facility is replaced by explicit events: a `Call` carries the handle
 the timer facility returns when the call arms it, and `TimerFires` is the
 expiry of the armed timer. The source runs the wrapped function before it
 clears `ready` and arms the timer, so a function that throws leaves the
 wrapper as it was: a `Call` also says whether the function returned.
 */
module Throttle {
  import opened Wrappers

  /** The value a timer facility hands back when a timer is armed. */
  type TimerHandle = nat

  datatype State = State(ready: bool, timer: Option<TimerHandle>)

  /** `returned` is false when the wrapped function throws instead of returning. */
  datatype Event = Call(handle: TimerHandle, returned: bool) | TimerFires

  /** A call whose wrapped function returns: the only kind that can start a cooldown. */
  predicate StartsCooldown(e: Event) {
    e.Call? && e.returned
  }

  /** The new state after an event, and whether the wrapped function ran. */
  datatype Outcome = Outcome(next: State, invoked: bool)

  /** The states of a wrapper fed events, and for each event whether the wrapped function ran. */
  datatype Trace = Trace(final: State, invoked: seq<bool>)

  /** A fresh wrapper: ready, with no timer. */
  const Initial: State := State(true, None)

  /** The source's `isThrottled()`: whether a cooldown timer is pending. */
  predicate IsThrottled(s: State): (throttled: bool)
    ensures Valid(s) ==> (throttled <==> !s.ready)
  {
    s.timer.Some?
  }

  /** The wrapper's invariant: it is ready exactly when no timer is pending. */
  predicate Valid(s: State) {
    s.ready <==> s.timer.None?
  }

  /** A call of the wrapper; `handle` is what arming the cooldown timer returns, and
      `returned` whether the wrapped function returned rather than threw. */
  function OnCall(s: State, handle: TimerHandle, returned: bool): (o: Outcome)
    ensures o.invoked <==> s.ready
    ensures !s.ready || !returned ==> o.next == s
    ensures returned ==> !o.next.ready
    ensures Valid(s) ==> Valid(o.next)
    ensures Valid(s) && returned ==> IsThrottled(o.next)
    ensures s.ready && returned ==> o.next.timer == Some(handle)
  {
    if !s.ready then Outcome(s, false)
    else if !returned then Outcome(s, true)
    else Outcome(State(false, Some(handle)), true)
  }

  /** The expiry of the cooldown timer. It is accepted in any state, although the program
      only ever fires a timer it armed on a returning call, so `TimerFires` events in a
      state with no pending timer are behaviours the program cannot produce; every lemma
      below holds for them too. */
  function OnTimerFires(s: State): (o: Outcome)
    ensures o.next.ready && !IsThrottled(o.next) && o.next == Initial
    ensures !o.invoked
  {
    Outcome(State(true, None), false)
  }

  /** One event: a call of the wrapper or the expiry of its timer. */
  function Step(s: State, e: Event): (o: Outcome)
    ensures o.invoked <==> e.Call? && s.ready
    ensures StartsCooldown(e) ==> !o.next.ready
    ensures e.TimerFires? ==> o.next == Initial
    ensures Valid(s) ==> Valid(o.next)
  {
    match e
    case Call(handle, returned) => OnCall(s, handle, returned)
    case TimerFires => OnTimerFires(s)
  }

  /** A fresh wrapper is ready, not throttled, and valid. */
  lemma InitialValid()
    ensures Valid(Initial) && Initial.ready && !IsThrottled(Initial)
  {
  }

  /** Both events preserve the invariant, and under it `isThrottled()` is "not ready". */
  lemma StepPreservesValid(s: State, e: Event)
    requires Valid(s)
    ensures Valid(Step(s, e).next)
    ensures IsThrottled(s) <==> !s.ready
  {
  }

  /** Feeds events to a wrapper in order, recording for each whether the wrapped function ran. */
  function Replay(s: State, events: seq<Event>): (tr: Trace)
    ensures |tr.invoked| == |events|
    ensures Valid(s) ==> Valid(tr.final)
    decreases |events|
  {
    if |events| == 0 then Trace(s, [])
    else
      var prev := Replay(s, events[..|events| - 1]);
      var o := Step(prev.final, events[|events| - 1]);
      Trace(o.next, prev.invoked + [o.invoked])
  }

  /** How many of the recorded events ran the wrapped function. */
  function Invocations(invoked: seq<bool>): nat {
    if |invoked| == 0 then 0
    else Invocations(invoked[..|invoked| - 1]) + (if invoked[|invoked| - 1] then 1 else 0)
  }

  /** How many of the events are calls whose wrapped function threw. */
  function Throws(events: seq<Event>): nat {
    if |events| == 0 then 0
    else Throws(events[..|events| - 1]) + (if events[|events| - 1].Call? && !events[|events| - 1].returned then 1 else 0)
  }

  /** How many of the events are timer expiries. */
  function Fires(events: seq<Event>): nat {
    if |events| == 0 then 0
    else Fires(events[..|events| - 1]) + (if events[|events| - 1].TimerFires? then 1 else 0)
  }

  /** Every returning call among the first `n` events was followed by a timer expiry before
      event `n`: the reference condition for the wrapper being ready after `n` events. */
  ghost predicate CooledDown(events: seq<Event>, n: nat)
    requires n <= |events|
  {
    forall j :: 0 <= j < n && StartsCooldown(events[j]) ==> exists k :: j < k < n && events[k].TimerFires?
  }

  /** Whether the first `n` events have cooled down depends only on those events. */
  lemma CooledDownPrefix(events: seq<Event>, n: nat, i: nat)
    requires i <= n <= |events|
    ensures CooledDown(events[..n], i) <==> CooledDown(events, i)
  {
  }

  /** An expiry cools the wrapper down, a returning call heats it up, and a throwing call
      leaves it as it was. */
  lemma CooledDownStep(events: seq<Event>, n: nat)
    requires n < |events|
    ensures events[n].TimerFires? ==> CooledDown(events, n + 1)
    ensures StartsCooldown(events[n]) ==> !CooledDown(events, n + 1)
    ensures events[n].Call? && !events[n].returned ==> (CooledDown(events, n + 1) <==> CooledDown(events, n))
  {
    if events[n].Call? && !events[n].returned {
      if CooledDown(events, n) {
        forall j | 0 <= j < n + 1 && StartsCooldown(events[j])
          ensures exists k :: j < k < n + 1 && events[k].TimerFires?
        {
          var k :| j < k < n && events[k].TimerFires?;
          assert j < k < n + 1;
        }
      }
    }
  }

  /** Replaying more events does not change what the earlier ones recorded. */
  lemma ReplayExtends(s: State, events: seq<Event>)
    requires |events| > 0
    ensures Replay(s, events).invoked[..|events| - 1] == Replay(s, events[..|events| - 1]).invoked
  {
  }

  /** Whatever the events, a fresh wrapper runs the wrapped function on exactly those calls
      that come after every earlier returning call has been followed by a timer expiry,
      and it is ready at the end exactly when every returning call has been so followed. */
  lemma {:induction false} ReplayMatchesCooldown(events: seq<Event>)
    ensures var tr := Replay(Initial, events);
      && (tr.final.ready <==> CooledDown(events, |events|))
      && (forall i :: 0 <= i < |events| ==> (tr.invoked[i] <==> events[i].Call? && CooledDown(events, i)))
    decreases |events|
  {
    if |events| > 0 {
      var n := |events| - 1;
      var p := events[..n];
      ReplayMatchesCooldown(p);
      var prev := Replay(Initial, p);
      var tr := Replay(Initial, events);
      ReplayExtends(Initial, events);
      forall i | 0 <= i < |events|
        ensures tr.invoked[i] <==> events[i].Call? && CooledDown(events, i)
      {
        CooledDownPrefix(events, n, i);
        if i < n {
          assert tr.invoked[i] == tr.invoked[..n][i] == prev.invoked[i];
        }
      }
      CooledDownStep(events, n);
    }
  }

  /** A burst of one or more returning calls with no expiry in between runs the wrapped
      function once if the wrapper was ready and never otherwise, and leaves the wrapper
      throttled. */
  lemma {:induction false} BurstInvokesOnce(s: State, events: seq<Event>)
    requires Valid(s) && |events| >= 1
    requires forall i :: 0 <= i < |events| ==> StartsCooldown(events[i])
    ensures var tr := Replay(s, events);
      && Invocations(tr.invoked) == (if s.ready then 1 else 0)
      && !tr.final.ready && IsThrottled(tr.final)
    decreases |events|
  {
    var n := |events| - 1;
    var p := events[..n];
    var tr := Replay(s, events);
    var prev := Replay(s, p);
    ReplayExtends(s, events);
    assert tr.invoked[..n] == prev.invoked;
    if n == 0 {
      assert prev.invoked == [];
    } else {
      BurstInvokesOnce(s, p);
    }
  }

  /** A ready wrapper whose wrapped function throws on every call runs it on every call:
      nothing throttles a function that never returns normally. */
  lemma {:induction false} ThrowingCallsAllInvoke(s: State, events: seq<Event>)
    requires s.ready
    requires forall i :: 0 <= i < |events| ==> events[i].Call? && !events[i].returned
    ensures var tr := Replay(s, events);
      && tr.final == s
      && Invocations(tr.invoked) == |events|
    decreases |events|
  {
    if |events| > 0 {
      var n := |events| - 1;
      ThrowingCallsAllInvoke(s, events[..n]);
      ReplayExtends(s, events);
    }
  }

  /** The throttle's rate guarantee: over any events the wrapped function runs at most once
      more than the number of timer expiries plus the number of calls on which it threw,
      and one fewer if the wrapper started throttled. */
  lemma {:induction false} AtMostOncePerCooldown(s: State, events: seq<Event>)
    ensures var tr := Replay(s, events);
      Invocations(tr.invoked) + (if tr.final.ready then 1 else 0)
        <= (if s.ready then 1 else 0) + Fires(events) + Throws(events)
    decreases |events|
  {
    if |events| > 0 {
      var n := |events| - 1;
      AtMostOncePerCooldown(s, events[..n]);
      var tr := Replay(s, events);
      var prev := Replay(s, events[..n]);
      ReplayExtends(s, events);
      assert tr.invoked[..n] == prev.invoked;
    }
  }
}

=== FILE: wrappers.dfy ===
/** Optional values, standing for the source's `undefined`. */
module Wrappers {

  datatype Option<+T> = None | Some(value: T)
}
